=== FILE: README.md ===
# Join-request bot: a Dafny model

This project models the core of a Telegram bot (`TelegramBot` in `bot.py`) that
auto-approves join requests to groups and channels after a delay, welcomes the
users it approved once they appear as members, counts requests, approvals and
departures, and periodically reports those counts to the chats' administrators.

The bot's state is one immutable record (`BotState.State`):

- `pending`: the pending join requests, keyed by user id alone;
- `approved`: the users approved and not yet welcomed;
- `stats`: seven natural-number counters (hourly, 8-hour and lifetime);
- `tracked`: the chats the bot has seen activity in.

Every handler is a pure function from a state to a `Transition`: the new state
plus the effects it produced (an approval job queued, an administrator notified,
a join approved, a welcome sent, a report delivered). Each call the bot makes to
Telegram becomes a parameter holding the reply it got. A reply is a value, a
`BadRequest`/`Forbidden` rejection (`Refused`), or any other exception
(`Errored`). The code treats the last two differently, so the model keeps them
apart.

Modules, following the handlers:

- `Text`: the decimal rendering of ids (`str(int)`), its inverse, and a
  first-occurrence search.
- `Telegram`: chat kinds, member statuses, user records, replies.
- `BotState`: configuration, counters, state, effects, and the invariant `Valid`.
- `JoinRequests`: `handle_chat_join_request`, the job name, and `notify_admins`.
- `Approval`: `auto_approve_request`.
- `Membership`: `handle_chat_member_update` and `send_welcome_message`.
- `Reports`: `send_stats_to_admins`, `send_hourly_stats`, `send_daily_stats`.
- `Lifecycle`: every handler as one step, and the invariants over any trace.
- `EnvToken`: reading the token from `.env` lines and the start-up token check.

Behaviour of the code worth knowing before reading the contracts:

- Statistics are global counters only (bot.py:30-38). Nothing is kept per chat
  and nothing is persisted.
- `pending_requests` is keyed by user alone (bot.py:80). A request for chat B
  overwrites one for chat A. The older job for chat A then approves A and
  consumes the B entry (`Approval.StaleJobConsumesNewerRequest`).
- The 8-hour report is sent even when its window is empty. Its "approved"
  line shows the lifetime total (bot.py:275-294).
- If the permission lookup or the formatted send raises anything other than
  `BadRequest`/`Forbidden`, the exception leaves `send_welcome_message`. The
  `approved_users.remove` on bot.py:167 is then skipped, so the mark stays.
  This includes a failure to read `can_send_messages` from the bot's member
  record (bot.py:186-187): the model counts any such failure as an
  `Errored` permission reply.
- The plain-text fallback is tried only after a `BadRequest`/`Forbidden` on
  the formatted send (bot.py:209-217).
- Without `config.json` the delay is 10 seconds (bot.py:47-51). A
  `config.json` without the key gives 600 seconds (bot.py:92).
- bot.py:380 registers the member handler with `ChatMemberHandler`'s
  default update type. In python-telegram-bot that default is
  `MY_CHAT_MEMBER`: changes to the bot's own membership. Such updates carry
  no `chat_member` field, so the handler returns at bot.py:147-148. As
  wired, the welcome (bot.py:160-167) and the departure counters
  (bot.py:170-175) may therefore never run.
- The status lists at bot.py:161 and bot.py:171 name `ChatMember.KICKED`.
  The imports at bot.py:9-10 (`Application`, `telegram.constants.ChatType`)
  point to python-telegram-bot 20 or later. In those versions the removed
  member's status constant is `ChatMember.BANNED`, and `ChatMember.KICKED`
  does not exist. Then building the list at bot.py:161 raises
  `AttributeError` on every `chat_member` update, right after the chat is
  tracked (bot.py:158). No welcome is sent, no departure is counted, and the
  approved mark stays.
- `Membership.HandleMemberUpdate` models the handler as its code reads. It
  takes a call with a `chat_member` update and a `KICKED` constant that
  resolves to the removed-member status. It therefore describes what the
  handler would do if both of the points above were corrected.

## Model

| member | source | states |
|---|---|---|
| Text.NatToString | bot.py:60-61 | renders a non-empty string of decimal digits with no leading zero |
| Text.ParseNatOfNatToString | bot.py:60-61 | reading back a rendered natural number gives the number |
| Text.IntToString | bot.py:60-61 | `str(id)`: a minus sign exactly for negative ids, digits after it, never an underscore |
| Text.IntToStringRoundTrip | bot.py:60-61 | parsing the rendering of any id gives the id back |
| Text.IntToStringInjective | bot.py:25-26 | distinct ids give distinct keys, so keying the tables by `str(id)` is keying by id |
| Text.IndexOf | bot.py:421 | the first position of a character, or absence when it does not occur |
| Text.IndexOfAfterPrefix | bot.py:99 | the first separator after a separator-free prefix sits right after that prefix |
| JoinRequests.JobName | bot.py:99 | every approval job's name starts with `approve_`; the name is only a label, since the job's data carries the (user, chat) pair (bot.py:98) |
| JoinRequests.JobNameRoundTrip | bot.py:95-100 | the (user, chat) pair can be recovered from the label, so the label identifies the request; the program itself never parses it |
| JoinRequests.JobNameInjective | bot.py:95-100 | two jobs get the same label exactly when they are for the same user and chat |
| JoinRequests.NotifiedAdmins | bot.py:237-247 | an administrator is notified iff listed, not a bot, and the send went through |
| JoinRequests.NotifiedAdminsSingle | bot.py:239-247 | a single entry yields its id exactly when it is a non-bot whose message went through |
| JoinRequests.NotifiedAdminsAppend | bot.py:239-245 | administrators are notified in list order, one message per qualifying entry |
| JoinRequests.Notifications | bot.py:105-107 | notifications only when enabled (default on) and the admin list was fetched; then exactly one per notified administrator, in list order, each naming the applicant |
| JoinRequests.HandleJoinRequest | bot.py:54-107 | unsupported chat kinds change nothing; otherwise three counters +1, chat tracked, the user's entry overwritten; the effects are the job (only with a job queue, and only first) followed by exactly the admin notifications |
| BotState.RecordRequest | bot.py:72-74 | a request adds one to both windows and the lifetime total and leaves every other counter alone |
| BotState.RecordLeft | bot.py:173-175 | a departure adds one to both windows and the lifetime total and leaves every other counter alone |
| BotState.ResetHourly | bot.py:272-273 | the hourly reset zeroes the two hourly counters and nothing else |
| BotState.ResetDaily | bot.py:293-294 | the 8-hour reset zeroes the two 8-hour counters and nothing else |
| BotState.InitialValid | bot.py:22-39 | a freshly constructed bot satisfies the invariant |
| BotState.FallbackDelay | bot.py:47-51 | without `config.json` the delay is 10 seconds, while a file lacking the key gives 600 (bot.py:92); both notify administrators |
| Approval.AutoApprove | bot.py:109-143 | a job for a user with no pending entry is a no-op; otherwise the entry is gone, and the user is approved with the total +1 on success, or nothing else changes on failure |
| Approval.SecondFiringIsNoOp | bot.py:115-118 | a second firing for the same user changes nothing, so the approval total grows at most once |
| Approval.StaleJobConsumesNewerRequest | bot.py:116-131 | an older job for chat A consumes a newer request for chat B, and B's job then does nothing |
| Membership.FormattedWelcome | bot.py:194-201 | the channel welcome is the plain welcome with a leading emoji; the group welcome is exactly the mention linking the user's id, then `, `, then the template |
| Membership.PlainWelcome | bot.py:213-215 | the fallback is exactly the greeting by first name, `! `, then the template |
| Membership.SendWelcome | bot.py:178-218 | at most one welcome, into the update's chat; it raises exactly on an unexpected permission-lookup error or formatted-send error; a welcome goes out iff sending is allowed and the formatted send, or else the fallback after a rejection, succeeded; the sent text is the Markdown welcome, or the plain welcome without Markdown on the fallback |
| Membership.HandleMemberUpdate | bot.py:145-176 | the chat is always tracked; on a join of an approved user the effects are exactly what the welcome attempt sent and the mark is consumed, unless the attempt raised, which leaves the mark and sends nothing; other updates send nothing and keep the marks; a departure counts once |
| Membership.WelcomeOnce | bot.py:160-167 | repeating a handled update emits no second welcome |
| Reports.EnumeratedChatsTracked | bot.py:305 | every chat the fan-out visits is tracked |
| Reports.DeliverKeepsDistinct | bot.py:322-329 | within a chat, an administrator is recorded at most once |
| Reports.DeliverReaches | bot.py:322-334 | after a chat, an administrator counts as reached iff reached before or listed there, non-bot, with a successful send |
| Reports.FanOutKeepsDistinct | bot.py:298-329 | across all chats, no administrator is reached twice |
| Reports.FanOutReaches | bot.py:305-334 | an administrator is reached iff some consulted chat lists them as a non-bot with a successful send |
| Reports.FanOutDrops | bot.py:336-339 | the chats dropped are exactly those refusing the chat lookup or, past the channel gate, the admin lookup |
| Reports.SendStatsToAdmins | bot.py:296-341 | no tracked chats means no message; an administrator gets the report iff a consulted chat lists them as a non-bot and a send to them went through, and never twice; `tracked` loses exactly the inaccessible chats and never grows; nothing else changes |
| Reports.SendHourlyStats | bot.py:255-273 | an empty hour sends nothing and changes nothing; otherwise every effect is the hourly report to a distinct administrator, exactly those the fan-out reaches; only the hourly counters are reset, and pending/approved are untouched |
| Reports.SendDailyStats | bot.py:275-294 | always sends the 8-hour and lifetime figures, as its only effects, once to each administrator the fan-out reaches; then zeroes only the 8-hour counters |
| Lifecycle.StepTotals | bot.py:54-294 | lifetime totals never decrease, grow by at most one per handler, and are untouched by report ticks |
| Lifecycle.StepKeepsValid | bot.py:72-143 | every handler keeps approvals plus pending requests within total requests, the windows within the totals, and keys consistent |
| Lifecycle.TraceKeepsValid | bot.py:54-294 | the invariant holds throughout any sequence of handler runs |
| Lifecycle.ApprovalsBoundedByRequests | bot.py:72-143 | from a fresh bot, approvals plus pending requests never exceed requests, hence approvals never exceed requests |
| EnvToken.TrimStart | bot.py:419 | drops exactly the leading whitespace |
| EnvToken.TrimEnd | bot.py:419 | drops exactly the trailing whitespace |
| EnvToken.StripRemovesOnlyOuterSpace | bot.py:419 | `strip()` leaves a contiguous piece of the line with no whitespace at either end, having dropped exactly the leading whitespace and only whitespace after it |
| EnvToken.StripOfStripped | bot.py:421 | stripping a string without outer whitespace leaves it unchanged |
| EnvToken.StripIdempotent | bot.py:419-421 | stripping twice equals stripping once |
| EnvToken.Unquote | bot.py:423-426 | a token without surrounding quotes is left alone |
| EnvToken.UnquoteQuoted | bot.py:423-426 | a double-quoted token loses those quotes and then a single-quote pair if one remains; a token only in single quotes loses those |
| EnvToken.UnquoteSingle | bot.py:425-426 | a token written in single quotes is read back without them |
| EnvToken.UnquoteNested | bot.py:423-426 | single quotes inside double quotes are both removed |
| EnvToken.TokenFromLine | bot.py:419-421 | a line yields a token iff, once stripped, it starts with `TELEGRAM_BOT_TOKEN=` |
| EnvToken.TokenFromLineOfStrip | bot.py:418-419 | whitespace around a line does not change the token it yields |
| EnvToken.StripOfPadded | bot.py:419 | stripping a non-empty stripped line padded with whitespace gives the line back |
| EnvToken.PaddedLineToken | bot.py:418-426 | an indented line with its newline yields the same token as the bare line |
| EnvToken.FileLineRoundTrip | bot.py:418-426 | `TELEGRAM_BOT_TOKEN=t` followed by a newline reads back `t` |
| EnvToken.SplitTakesValue | bot.py:421 | splitting the token line at its first `=` takes everything after the key |
| EnvToken.FirstPresent | bot.py:418-427 | the first present value, absent iff every value is absent |
| EnvToken.TokenFromEnvFile | bot.py:418-427 | the first token line of the file decides; no token iff no line is a token line |
| EnvToken.ResolveToken | bot.py:412-429 | a non-empty environment variable wins; otherwise a token line in `.env`; when there is none, or no file, the variable's value as it was |
| EnvToken.CheckToken | bot.py:431-442 | accepted iff the token contains `:` and has at least 35 characters (the placeholder test is subsumed); missing iff absent, empty or the placeholder |
| EnvToken.TokenOfKeyLine | bot.py:420-426 | on a stripped key line, the token is the unquoted, stripped remainder |
| EnvToken.KeyLineStripped | bot.py:419-421 | a key followed by a stripped value is a stripped key line |
| EnvToken.BareLineRoundTrip | bot.py:420-426 | writing `TELEGRAM_BOT_TOKEN=t` for a stripped, unquoted `t` reads back `t` |
| EnvToken.QuotedLineRoundTrip | bot.py:420-426 | writing the token in double quotes reads back the token, inner whitespace kept |

## Left out

- Telegram transport, the job queue's timing and `run_polling`: `run`,
  `setup_periodic_tasks` (the 3600 s and 28800 s periods) and signal handling
  are framework wiring. Scheduling is only the `ScheduleApproval` effect.
- Asyncio interleaving: each handler is one atomic step. In the code, another
  handler could pop the pending entry while `approve_chat_join_request` is in
  flight. The user would then be added to `approved_users` without
  `total_approved` growing. This model cannot express that.
- `load_config` file I/O: the configuration is an immutable record of the
  three keys read, each possibly missing. `FallbackConfig` holds the values
  used when the file is missing.
- Text of the admin notification and of both reports, logging, and
  `datetime.now()`. The request time is a parameter. Reports carry the figures
  they show, not their formatting.
- The absence guards at bot.py:56-57 and bot.py:147-148: an update without
  the expected field makes the handler return with nothing changed. The
  model describes only calls that carry a join request or a `chat_member`
  update, respectively. Which updates reach `handle_chat_member_update` is
  decided by the handler registration (see above), which is not modelled.
- Values of other JSON types in `config.json`: the delay is an integer, the
  template a string, the notification switch a boolean.
- `main`'s environment and file access: the variable and the `.env` lines are
  parameters. The process start that follows an accepted token is not
  modelled.
- check_bot.py and webhook_util.py: thin HTTP clients with no state.

=== FILE: approval.dfy ===
/** `auto_approve_request`: the delayed job queued for each join request. */
module Approval {

  import opened Telegram
  import opened BotState

  /** The reply to `approve_chat_join_request`; any exception is a failure. */
  datatype ApproveReply = ApproveOk | ApproveFailed

  /** The job fired for (`user`, `chat`). Only the user's presence in
      `pending_requests` is checked; the entry is popped even when it was
      written by a later request for another chat. */
  function AutoApprove(s: State, user: UserId, chat: ChatId, reply: ApproveReply): (t: Transition)
    ensures user !in s.pending ==> t == Transition(s, [])
    ensures user in s.pending ==> t.state.pending == s.pending - {user}
    ensures user in s.pending && reply == ApproveOk ==>
      && t.state.approved == s.approved + {user}
      && t.state.stats == s.stats.(totalApproved := s.stats.totalApproved + 1)
      && t.effects == [JoinApproved(chat, user)]
    ensures user in s.pending && reply == ApproveFailed ==>
      && t.state.approved == s.approved
      && t.state.stats == s.stats
      && t.effects == []
    ensures t.state.tracked == s.tracked
  {
    if user !in s.pending then Transition(s, [])
    else if reply == ApproveOk then
      Transition(
        s.(approved := s.approved + {user},
           pending := s.pending - {user},
           stats := s.stats.(totalApproved := s.stats.totalApproved + 1)),
        [JoinApproved(chat, user)])
    else
      Transition(s.(pending := s.pending - {user}), [])
  }

  /** A second firing of the same job, whatever the platform answers, changes
      nothing: the approval total grows at most once per request. */
  lemma SecondFiringIsNoOp(s: State, user: UserId, chat: ChatId, first: ApproveReply, second: ApproveReply)
    ensures var s1 := AutoApprove(s, user, chat, first).state;
      AutoApprove(s1, user, chat, second) == Transition(s1, [])
    ensures AutoApprove(AutoApprove(s, user, chat, first).state, user, chat, second).state.stats.totalApproved
      <= s.stats.totalApproved + 1
  {
  }

  /** Because the table is keyed by user alone, an older job for chat `a`
      consumes a newer request for chat `b`: the platform approves `a`, and
      the later job for `b` finds nothing to do. The statement holds for any
      two chats; it is surprising only when they differ. */
  lemma StaleJobConsumesNewerRequest(
    s: State, user: UserData, a: ChatId, b: ChatId, at: int, r1: ApproveReply, r2: ApproveReply)
    ensures
      var s1 := s.(pending := s.pending[user.id := PendingRequest(b, at, user)]);
      var t1 := AutoApprove(s1, user.id, a, r1);
      var t2 := AutoApprove(t1.state, user.id, b, r2);
      && user.id !in t1.state.pending
      && (r1 == ApproveOk ==> t1.effects == [JoinApproved(a, user.id)])
      && t2 == Transition(t1.state, [])
  {
  }
}

=== FILE: join.dfy ===
/** `handle_chat_join_request` and the admin notification it triggers. */
module JoinRequests {

  import opened Wrappers
  import opened Text
  import opened Telegram
  import opened BotState

  const JobPrefix := "approve_"

  /** The name under which the approval job is queued: `approve_{user}_{chat}`. */
  function JobName(user: UserId, chat: ChatId): (name: string)
    ensures StartsWith(name, JobPrefix)
  {
    JobPrefix + IntToString(user) + "_" + IntToString(chat)
  }

  /** Recovers the (user, chat) pair from a job name. */
  function ParseJobName(name: string): Option<(UserId, ChatId)> {
    if !StartsWith(name, JobPrefix) then None
    else
      var rest := name[|JobPrefix|..];
      match IndexOf(rest, '_')
      case None => None
      case Some(k) =>
        match (ParseInt(rest[..k]), ParseInt(rest[k + 1..]))
        case (Some(u), Some(c)) => Some((u, c))
        case _ => None
  }

  lemma JobNameRoundTrip(user: UserId, chat: ChatId)
    ensures ParseJobName(JobName(user, chat)) == Some((user, chat))
  {
    var a, b := IntToString(user), IntToString(chat);
    var name := JobName(user, chat);
    assert name[|JobPrefix|..] == a + "_" + b;
    IndexOfAfterPrefix(a, '_', b);
    var rest := a + "_" + b;
    assert rest[..|a|] == a;
    assert rest[|a| + 1..] == b;
    IntToStringRoundTrip(user);
    IntToStringRoundTrip(chat);
  }

  /** Two requests get the same job name only if they are for the same user
      and the same chat. */
  lemma JobNameInjective(u1: UserId, c1: ChatId, u2: UserId, c2: ChatId)
    ensures JobName(u1, c1) == JobName(u2, c2) <==> u1 == u2 && c1 == c2
  {
    JobNameRoundTrip(u1, c1);
    JobNameRoundTrip(u2, c2);
  }

  /** The administrators `notify_admins` reaches, in list order: every
      non-bot entry whose message went through. */
  function NotifiedAdmins(admins: seq<AdminEntry>): (r: seq<UserId>)
    ensures |r| <= |admins|
    ensures forall x :: x in r <==> exists a :: a in admins && !a.isBot && a.delivered && a.id == x
  {
    if |admins| == 0 then []
    else
      var tail := NotifiedAdmins(admins[1..]);
      assert forall a :: a in admins[1..] ==> a in admins;
      assert forall a :: a in admins ==> a == admins[0] || a in admins[1..];
      if !admins[0].isBot && admins[0].delivered then [admins[0].id] + tail else tail
  }

  /** One entry yields its own id exactly when it is a non-bot whose message
      went through. */
  lemma NotifiedAdminsSingle(a: AdminEntry)
    ensures NotifiedAdmins([a]) == if !a.isBot && a.delivered then [a.id] else []
  {
    assert [a][1..] == [];
  }

  /** The administrators are notified in list order, one message per entry:
      notifying `xs + ys` notifies those of `xs`, then those of `ys`. */
  lemma {:induction false} NotifiedAdminsAppend(xs: seq<AdminEntry>, ys: seq<AdminEntry>)
    ensures NotifiedAdmins(xs + ys) == NotifiedAdmins(xs) + NotifiedAdmins(ys)
    decreases |xs|
  {
    if |xs| > 0 {
      assert (xs + ys)[0] == xs[0];
      assert (xs + ys)[1..] == xs[1..] + ys;
      NotifiedAdminsAppend(xs[1..], ys);
    } else {
      assert xs + ys == ys;
    }
  }

  /** Notification effects for one request; a failed administrator lookup
      sends nothing (the error is logged). */
  function Notifications(cfg: Config, admins: Reply<seq<AdminEntry>>, applicant: UserId): (r: seq<Effect>)
    ensures !NotifiesAdmins(cfg) || !admins.Ok? ==> r == []
    ensures forall i :: 0 <= i < |r| ==> r[i].AdminNotified? && r[i].applicant == applicant
    ensures admins.Ok? && NotifiesAdmins(cfg) ==>
      forall x :: AdminNotified(x, applicant) in r <==>
        exists a :: a in admins.value && !a.isBot && a.delivered && a.id == x
    ensures NotifiesAdmins(cfg) && admins.Ok? ==>
      && |r| == |NotifiedAdmins(admins.value)|
      && forall i :: 0 <= i < |r| ==> r[i] == AdminNotified(NotifiedAdmins(admins.value)[i], applicant)
  {
    if NotifiesAdmins(cfg) && admins.Ok? then
      var ids := NotifiedAdmins(admins.value);
      var r := seq(|ids|, i requires 0 <= i < |ids| => AdminNotified(ids[i], applicant));
      assert forall x :: AdminNotified(x, applicant) in r <==> x in ids by {
        forall x ensures AdminNotified(x, applicant) in r <==> x in ids {
          if x in ids {
            var i :| 0 <= i < |ids| && ids[i] == x;
            assert r[i] == AdminNotified(x, applicant);
          }
        }
      }
      r
    else []
  }

  /** `handle_chat_join_request`. Only groups, supergroups and channels are
      handled; the entry of `pending_requests` for the user is overwritten,
      whichever chat it was for. */
  function HandleJoinRequest(
    cfg: Config, s: State,
    user: UserData, chat: ChatId, kind: ChatKind, requestedAt: int,
    hasJobQueue: bool, admins: Reply<seq<AdminEntry>>): (t: Transition)
    ensures !SupportedForJoin(kind) ==> t == Transition(s, [])
    ensures SupportedForJoin(kind) ==>
      && t.state.stats == RecordRequest(s.stats)
      && t.state.tracked == s.tracked + {chat}
      && t.state.pending == s.pending[user.id := PendingRequest(chat, requestedAt, user)]
      && t.state.approved == s.approved
    ensures SupportedForJoin(kind) && hasJobQueue ==>
      |t.effects| > 0 && t.effects[0] == ScheduleApproval(JobName(user.id, chat), ApprovalDelay(cfg), user.id, chat)
    ensures forall i :: 0 <= i < |t.effects| && t.effects[i].ScheduleApproval? ==> i == 0
    ensures (exists i :: 0 <= i < |t.effects| && t.effects[i].ScheduleApproval?) <==>
      SupportedForJoin(kind) && hasJobQueue
    ensures SupportedForJoin(kind) ==>
      t.effects == (if hasJobQueue
                    then [ScheduleApproval(JobName(user.id, chat), ApprovalDelay(cfg), user.id, chat)]
                    else []) + Notifications(cfg, admins, user.id)
  {
    if !SupportedForJoin(kind) then Transition(s, [])
    else
      var s' := State(
        s.pending[user.id := PendingRequest(chat, requestedAt, user)],
        s.approved,
        RecordRequest(s.stats),
        s.tracked + {chat});
      var job := if hasJobQueue
        then [ScheduleApproval(JobName(user.id, chat), ApprovalDelay(cfg), user.id, chat)]
        else [];
      var notes := Notifications(cfg, admins, user.id);
      var effects := job + notes;
      Transition(s', effects)
  }
}

=== FILE: lifecycle.dfy ===
/** The bot as a whole: every handler as one atomic step, and the invariants
    that hold across any sequence of steps. */
module Lifecycle {

  import opened Telegram
  import opened BotState
  import JoinRequests
  import Approval
  import Membership
  import Reports

  /** Everything that can run a handler: the two platform updates, the
      approval job, and the two periodic reports. */
  datatype Event =
    | JoinRequest(user: UserData, chat: ChatId, kind: ChatKind, requestedAt: int,
                  hasJobQueue: bool, admins: Reply<seq<AdminEntry>>)
    | ApprovalDue(userId: UserId, chat: ChatId, reply: Approval.ApproveReply)
    | MemberChange(chat: ChatId, kind: ChatKind, user: UserData,
                   before: MemberStatus, after: MemberStatus, welcome: Membership.WelcomeReplies)
    | HourlyTick(chats: seq<Reports.ChatReplies>)
    | DailyTick(chats: seq<Reports.ChatReplies>)

  /** A report tick must be given the current tracked chats. */
  predicate Admissible(s: State, e: Event) {
    match e
    case HourlyTick(chats) => Reports.Enumerates(chats, s.tracked)
    case DailyTick(chats) => Reports.Enumerates(chats, s.tracked)
    case _ => true
  }

  function Step(cfg: Config, s: State, e: Event): Transition
    requires Admissible(s, e)
  {
    match e
    case JoinRequest(user, chat, kind, at, hasJobQueue, admins) =>
      JoinRequests.HandleJoinRequest(cfg, s, user, chat, kind, at, hasJobQueue, admins)
    case ApprovalDue(user, chat, reply) =>
      Approval.AutoApprove(s, user, chat, reply)
    case MemberChange(chat, kind, user, before, after, welcome) =>
      Membership.HandleMemberUpdate(cfg, s, chat, kind, user, before, after, welcome)
    case HourlyTick(chats) => Reports.SendHourlyStats(s, chats)
    case DailyTick(chats) => Reports.SendDailyStats(s, chats)
  }

  /** Lifetime totals only ever grow, and each grows by at most one per step;
      the report ticks leave them exactly as they were. */
  lemma StepTotals(cfg: Config, s: State, e: Event)
    requires Admissible(s, e)
    ensures var st := Step(cfg, s, e).state.stats;
      && s.stats.totalRequests <= st.totalRequests <= s.stats.totalRequests + 1
      && s.stats.totalApproved <= st.totalApproved <= s.stats.totalApproved + 1
      && s.stats.totalLeft <= st.totalLeft <= s.stats.totalLeft + 1
    ensures e.HourlyTick? || e.DailyTick? ==>
      var st := Step(cfg, s, e).state.stats;
      st.totalRequests == s.stats.totalRequests && st.totalApproved == s.stats.totalApproved
      && st.totalLeft == s.stats.totalLeft
  {
  }

  lemma StepKeepsValid(cfg: Config, s: State, e: Event)
    requires Valid(s) && Admissible(s, e)
    ensures Valid(Step(cfg, s, e).state)
  {
  }

  /** `states` is what the bot goes through while handling `events`. */
  ghost predicate IsTrace(cfg: Config, states: seq<State>, events: seq<Event>) {
    && |states| == |events| + 1
    && forall i :: 0 <= i < |events| ==>
         Admissible(states[i], events[i]) && states[i + 1] == Step(cfg, states[i], events[i]).state
  }

  lemma {:induction false} TraceKeepsValid(cfg: Config, states: seq<State>, events: seq<Event>)
    requires IsTrace(cfg, states, events) && Valid(states[0])
    ensures forall i :: 0 <= i < |states| ==> Valid(states[i])
    decreases |events|
  {
    if |events| > 0 {
      var n := |events|;
      assert IsTrace(cfg, states[..n], events[..n - 1]) by {
        forall i | 0 <= i < n - 1
          ensures Admissible(states[..n][i], events[..n - 1][i])
          ensures states[..n][i + 1] == Step(cfg, states[..n][i], events[..n - 1][i]).state
        {
          assert states[..n][i] == states[i] && states[..n][i + 1] == states[i + 1];
        }
      }
      TraceKeepsValid(cfg, states[..n], events[..n - 1]);
      assert Valid(states[n - 1]) by {
        assert states[..n][n - 1] == states[n - 1];
      }
      StepKeepsValid(cfg, states[n - 1], events[n - 1]);
      forall i | 0 <= i < |states| ensures Valid(states[i]) {
        if i < n {
          assert states[..n][i] == states[i];
        }
      }
    }
  }

  /** From a fresh start, whatever happens, no more requests are approved or
      still waiting than ever arrived: a job firing twice, a request
      overwritten by a later one, or a report reset cannot break this. */
  lemma ApprovalsBoundedByRequests(cfg: Config, states: seq<State>, events: seq<Event>)
    requires IsTrace(cfg, states, events) && states[0] == Initial
    ensures forall i :: 0 <= i < |states| ==>
      states[i].stats.totalApproved + |states[i].pending| <= states[i].stats.totalRequests
    ensures forall i :: 0 <= i < |states| ==> states[i].stats.totalApproved <= states[i].stats.totalRequests
  {
    InitialValid();
    TraceKeepsValid(cfg, states, events);
  }
}

=== FILE: membership.dfy ===
/** `handle_chat_member_update` and `send_welcome_message`. */
module Membership {

  import opened Text
  import opened Telegram
  import opened BotState

  const ChannelGreeting := "\U{1F389} Добро пожаловать, "
  const PlainGreeting := "Добро пожаловать, "

  /** The Markdown welcome: channels get a greeting by first name, other chats
      an inline mention linking to the user. */
  function FormattedWelcome(kind: ChatKind, user: UserData, template: string): (text: string)
    ensures kind == Channel ==> text == "\U{1F389} " + PlainWelcome(user, template)
    ensures kind != Channel ==>
      var mention := "[" + user.firstName + "](tg://user?id=" + IntToString(user.id) + ")";
      && StartsWith(text, mention)
      && |text| == |mention| + 2 + |template|
      && text[|mention|..|mention| + 2] == ", "
    ensures |template| <= |text| && text[|text| - |template|..] == template
  {
    if kind == Channel then
      var head := ChannelGreeting + user.firstName + "! ";
      assert ChannelGreeting == "\U{1F389} " + PlainGreeting;
      assert head == "\U{1F389} " + (PlainGreeting + user.firstName + "! ");
      assert (head + template)[|head|..] == template;
      head + template
    else
      var mention := "[" + user.firstName + "](tg://user?id=" + IntToString(user.id) + ")";
      var head := mention + ", ";
      assert (head + template)[..|mention|] == mention;
      assert (head + template)[|mention|..|mention| + 2] == ", ";
      assert (head + template)[|head|..] == template;
      head + template
  }

  /** The fallback welcome sent without formatting. */
  function PlainWelcome(user: UserData, template: string): (text: string)
    ensures StartsWith(text, PlainGreeting + user.firstName + "! ")
    ensures |text| == |PlainGreeting| + |user.firstName| + 2 + |template|
    ensures |template| <= |text| && text[|text| - |template|..] == template
  {
    var head := PlainGreeting + user.firstName + "! ";
    assert (head + template)[..|head|] == head;
    assert (head + template)[|head|..] == template;
    head + template
  }

  /** The platform's answers during one `send_welcome_message`: the bot's
      `can_send_messages` right, then the formatted send, then the fallback. */
  datatype WelcomeReplies = WelcomeReplies(canSend: Reply<bool>, formatted: SendOutcome, plain: SendOutcome)

  /** How `send_welcome_message` ended: normally, with the welcome it
      delivered (if any), or with an exception it does not catch. */
  datatype WelcomeRun = Finished(sent: seq<Effect>) | Raised

  function SendWelcome(
    cfg: Config, chat: ChatId, kind: ChatKind, user: UserData, replies: WelcomeReplies): (w: WelcomeRun)
    ensures w.Finished? ==> |w.sent| <= 1 && forall e :: e in w.sent ==> e.Welcome? && e.chatId == chat
    ensures w.Raised? <==>
      replies.canSend.Errored? || (replies.canSend == Ok(true) && replies.formatted == SendErrored)
    ensures w.Finished? && |w.sent| == 1 <==>
      replies.canSend == Ok(true) &&
      (replies.formatted == Sent || (replies.formatted == SendRefused && replies.plain == Sent))
    ensures replies.canSend == Ok(true) && replies.formatted == Sent ==>
      w == Finished([Welcome(chat, FormattedWelcome(kind, user, WelcomeTemplate(cfg)), true)])
    ensures replies.canSend == Ok(true) && replies.formatted == SendRefused && replies.plain == Sent ==>
      w == Finished([Welcome(chat, PlainWelcome(user, WelcomeTemplate(cfg)), false)])
  {
    match replies.canSend
    case Errored => Raised
    case Refused => Finished([])
    case Ok(allowed) =>
      if !allowed then Finished([])
      else
        var template := WelcomeTemplate(cfg);
        match replies.formatted
        case Sent => Finished([Welcome(chat, FormattedWelcome(kind, user, template), true)])
        case SendErrored => Raised
        case SendRefused =>
          if replies.plain == Sent then Finished([Welcome(chat, PlainWelcome(user, template), false)])
          else Finished([])
  }

  /** `handle_chat_member_update`. The chat is always tracked. A join by a
      user this bot approved triggers one welcome attempt and consumes the
      user's mark, unless the attempt raised; a departure counts. */
  function HandleMemberUpdate(
    cfg: Config, s: State, chat: ChatId, kind: ChatKind, user: UserData,
    before: MemberStatus, after: MemberStatus, replies: WelcomeReplies): (t: Transition)
    ensures t.state.tracked == s.tracked + {chat}
    ensures t.state.pending == s.pending
    ensures t.state.approved <= s.approved && s.approved - t.state.approved <= {user.id}
    ensures |t.effects| <= 1
    ensures |t.effects| == 1 ==> IsJoin(before, after) && user.id in s.approved && user.id !in t.state.approved
    ensures (IsJoin(before, after) && user.id in s.approved &&
             SendWelcome(cfg, chat, kind, user, replies).Finished?) ==> user.id !in t.state.approved
    ensures !IsJoin(before, after) || user.id !in s.approved ==> t.effects == [] && t.state.approved == s.approved
    ensures IsJoin(before, after) && user.id in s.approved ==>
      var w := SendWelcome(cfg, chat, kind, user, replies);
      && (w.Raised? ==> t.effects == [] && t.state.approved == s.approved)
      && (w.Finished? ==> t.effects == w.sent && t.state.approved == s.approved - {user.id})
    ensures IsLeave(before, after) ==> t.state.stats == RecordLeft(s.stats)
    ensures !IsLeave(before, after) ==> t.state.stats == s.stats
  {
    var s1 := s.(tracked := s.tracked + {chat});
    if IsJoin(before, after) then
      if user.id in s.approved then
        match SendWelcome(cfg, chat, kind, user, replies)
        case Raised => Transition(s1, [])
        case Finished(sent) => Transition(s1.(approved := s.approved - {user.id}), sent)
      else Transition(s1, [])
    else if IsLeave(before, after) then
      Transition(s1.(stats := RecordLeft(s.stats)), [])
    else
      Transition(s1, [])
  }

  /** The welcome is one-shot: once an update has been handled without the
      welcome attempt raising, the same update again emits nothing. */
  lemma WelcomeOnce(
    cfg: Config, s: State, chat: ChatId, kind: ChatKind, user: UserData,
    before: MemberStatus, after: MemberStatus, r1: WelcomeReplies, r2: WelcomeReplies)
    requires !(IsJoin(before, after) && user.id in s.approved) ||
      SendWelcome(cfg, chat, kind, user, r1).Finished?
    ensures
      var t1 := HandleMemberUpdate(cfg, s, chat, kind, user, before, after, r1);
      HandleMemberUpdate(cfg, t1.state, chat, kind, user, before, after, r2).effects == []
  {
  }
}

=== FILE: reports.dfy ===
/** `send_stats_to_admins`, `send_hourly_stats` and `send_daily_stats`. */
module Reports {

  import opened Telegram
  import opened BotState

  /** The platform's answers about one tracked chat during a fan-out:
      `get_chat`, then (channels only) the bot's own membership, then
      `get_chat_administrators` with the outcome of each send. */
  datatype ChatReplies = ChatReplies(
    id: ChatId,
    chat: Reply<ChatKind>,
    botStatus: Reply<MemberStatus>,
    admins: Reply<seq<AdminEntry>>)

  /** A chat whose administrators are consulted: its lookup answered, and if
      it is a channel the bot administers or owns it. */
  predicate PassesGate(c: ChatReplies) {
    c.chat.Ok? &&
    (c.chat.value == Channel ==> c.botStatus.Ok? && (c.botStatus.value == Administrator || c.botStatus.value == Owner))
  }

  predicate Reachable(c: ChatReplies) {
    PassesGate(c) && c.admins.Ok?
  }

  /** A chat that answers `BadRequest`/`Forbidden` to `get_chat` or to
      `get_chat_administrators` is no longer tracked. */
  predicate Dropped(c: ChatReplies) {
    c.chat.Refused? || (PassesGate(c) && c.admins.Refused?)
  }

  /** `chats` lists each tracked chat exactly once, in iteration order. */
  predicate Enumerates(chats: seq<ChatReplies>, tracked: set<ChatId>) {
    && (forall i, j :: 0 <= i < j < |chats| ==> chats[i].id != chats[j].id)
    && (set i | 0 <= i < |chats| :: chats[i].id) == tracked
  }

  lemma EnumeratedChatsTracked(chats: seq<ChatReplies>, tracked: set<ChatId>)
    requires Enumerates(chats, tracked)
    ensures forall i :: 0 <= i < |chats| ==> chats[i].id in tracked
  {
    forall i | 0 <= i < |chats| ensures chats[i].id in tracked {
      assert chats[i].id in (set k | 0 <= k < |chats| :: chats[k].id);
    }
  }

  predicate NoDuplicates(xs: seq<UserId>) {
    forall i, j :: 0 <= i < j < |xs| ==> xs[i] != xs[j]
  }

  /** The inner loop over one chat's administrators: a non-bot not yet
      reached is tried, and recorded only when the send went through. */
  function DeliverToAdmins(admins: seq<AdminEntry>, sent: seq<UserId>): seq<UserId> {
    if |admins| == 0 then sent
    else
      var a := admins[0];
      var sent' := if !a.isBot && a.id !in sent && a.delivered then sent + [a.id] else sent;
      DeliverToAdmins(admins[1..], sent')
  }

  /** The outer loop over tracked chats, returning everyone reached and the
      chats found inaccessible. */
  datatype FanOutResult = FanOutResult(sent: seq<UserId>, dropped: set<ChatId>)

  function FanOut(chats: seq<ChatReplies>, sent: seq<UserId>): FanOutResult {
    if |chats| == 0 then FanOutResult(sent, {})
    else
      var c := chats[0];
      var sent' := if Reachable(c) then DeliverToAdmins(c.admins.value, sent) else sent;
      var rest := FanOut(chats[1..], sent');
      FanOutResult(rest.sent, rest.dropped + (if Dropped(c) then {c.id} else {}))
  }

  ghost predicate AdminReached(admins: seq<AdminEntry>, x: UserId) {
    exists j :: 0 <= j < |admins| && !admins[j].isBot && admins[j].delivered && admins[j].id == x
  }

  /** `x` is a non-bot administrator of a consulted chat, and some send to
      `x` went through. */
  ghost predicate Receives(chats: seq<ChatReplies>, x: UserId) {
    exists i :: 0 <= i < |chats| && Reachable(chats[i]) && AdminReached(chats[i].admins.value, x)
  }

  lemma {:induction false} DeliverKeepsDistinct(admins: seq<AdminEntry>, sent: seq<UserId>)
    requires NoDuplicates(sent)
    ensures NoDuplicates(DeliverToAdmins(admins, sent))
    decreases |admins|
  {
    if |admins| > 0 {
      var a := admins[0];
      var sent' := if !a.isBot && a.id !in sent && a.delivered then sent + [a.id] else sent;
      DeliverKeepsDistinct(admins[1..], sent');
    }
  }

  lemma {:induction false} DeliverReaches(admins: seq<AdminEntry>, sent: seq<UserId>, x: UserId)
    ensures x in DeliverToAdmins(admins, sent) <==> x in sent || AdminReached(admins, x)
    decreases |admins|
  {
    if |admins| > 0 {
      var a := admins[0];
      var sent' := if !a.isBot && a.id !in sent && a.delivered then sent + [a.id] else sent;
      DeliverReaches(admins[1..], sent', x);
      if AdminReached(admins[1..], x) {
        var j :| 0 <= j < |admins[1..]| && !admins[1..][j].isBot && admins[1..][j].delivered && admins[1..][j].id == x;
        assert admins[j + 1] == admins[1..][j];
      }
      if AdminReached(admins, x) {
        var j :| 0 <= j < |admins| && !admins[j].isBot && admins[j].delivered && admins[j].id == x;
        if j > 0 {
          assert admins[1..][j - 1] == admins[j];
        }
      }
    }
  }

  lemma {:induction false} FanOutKeepsDistinct(chats: seq<ChatReplies>, sent: seq<UserId>)
    requires NoDuplicates(sent)
    ensures NoDuplicates(FanOut(chats, sent).sent)
    decreases |chats|
  {
    if |chats| > 0 {
      var c := chats[0];
      if Reachable(c) {
        DeliverKeepsDistinct(c.admins.value, sent);
      }
      var sent' := if Reachable(c) then DeliverToAdmins(c.admins.value, sent) else sent;
      FanOutKeepsDistinct(chats[1..], sent');
    }
  }

  lemma {:induction false} FanOutReaches(chats: seq<ChatReplies>, sent: seq<UserId>, x: UserId)
    ensures x in FanOut(chats, sent).sent <==> x in sent || Receives(chats, x)
    decreases |chats|
  {
    if |chats| > 0 {
      var c := chats[0];
      if Reachable(c) {
        DeliverReaches(c.admins.value, sent, x);
      }
      var sent' := if Reachable(c) then DeliverToAdmins(c.admins.value, sent) else sent;
      FanOutReaches(chats[1..], sent', x);
      if Receives(chats[1..], x) {
        var i :| 0 <= i < |chats[1..]| && Reachable(chats[1..][i]) && AdminReached(chats[1..][i].admins.value, x);
        assert chats[i + 1] == chats[1..][i];
      }
      if Receives(chats, x) {
        var i :| 0 <= i < |chats| && Reachable(chats[i]) && AdminReached(chats[i].admins.value, x);
        if i > 0 {
          assert chats[1..][i - 1] == chats[i];
        }
      }
    }
  }

  /** The ids of the chats a fan-out stops tracking. */
  ghost function DroppedIds(chats: seq<ChatReplies>): set<ChatId> {
    set i | 0 <= i < |chats| && Dropped(chats[i]) :: chats[i].id
  }

  lemma {:induction false} FanOutDrops(chats: seq<ChatReplies>, sent: seq<UserId>)
    ensures FanOut(chats, sent).dropped == DroppedIds(chats)
    decreases |chats|
  {
    if |chats| > 0 {
      var c := chats[0];
      var sent' := if Reachable(c) then DeliverToAdmins(c.admins.value, sent) else sent;
      FanOutDrops(chats[1..], sent');
      var whole, tail := DroppedIds(chats), DroppedIds(chats[1..]);
      assert whole == tail + (if Dropped(c) then {c.id} else {}) by {
        forall y | y in whole ensures y in tail + (if Dropped(c) then {c.id} else {}) {
          var i :| 0 <= i < |chats| && Dropped(chats[i]) && chats[i].id == y;
          if i > 0 {
            assert chats[1..][i - 1] == chats[i];
          }
        }
        forall y | y in tail ensures y in whole {
          var i :| 0 <= i < |chats[1..]| && Dropped(chats[1..][i]) && chats[1..][i].id == y;
          assert chats[i + 1] == chats[1..][i];
        }
      }
    }
  }

  function ReportEffects(admins: seq<UserId>, report: StatsReport): (r: seq<Effect>)
    ensures |r| == |admins|
    ensures forall i :: 0 <= i < |r| ==> r[i] == ReportDelivered(admins[i], report)
  {
    seq(|admins|, i requires 0 <= i < |admins| => ReportDelivered(admins[i], report))
  }

  /** `send_stats_to_admins`: one message per reachable administrator, each
      at most once, and inaccessible chats forgotten. */
  function SendStatsToAdmins(s: State, chats: seq<ChatReplies>, report: StatsReport): (t: Transition)
    requires Enumerates(chats, s.tracked)
    ensures t.state == s.(tracked := s.tracked - DroppedIds(chats))
    ensures t.state.tracked <= s.tracked
    ensures s.tracked == {} ==> t.effects == []
    ensures forall i :: 0 <= i < |t.effects| ==> t.effects[i].ReportDelivered? && t.effects[i].report == report
    ensures forall i, j :: 0 <= i < j < |t.effects| ==> t.effects[i].adminId != t.effects[j].adminId
    ensures forall x :: ReportDelivered(x, report) in t.effects <==> Receives(chats, x)
  {
    EnumeratedChatsTracked(chats, s.tracked);
    if s.tracked == {} then
      Transition(s, [])
    else
      var fo := FanOut(chats, []);
      FanOutKeepsDistinct(chats, []);
      FanOutDrops(chats, []);
      var effects := ReportEffects(fo.sent, report);
      assert forall x :: ReportDelivered(x, report) in effects <==> Receives(chats, x) by {
        forall x ensures ReportDelivered(x, report) in effects <==> Receives(chats, x) {
          FanOutReaches(chats, [], x);
          if x in fo.sent {
            var i :| 0 <= i < |fo.sent| && fo.sent[i] == x;
            assert effects[i] == ReportDelivered(x, report);
          }
        }
      }
      Transition(s.(tracked := s.tracked - fo.dropped), effects)
  }

  /** `send_hourly_stats`: silent when the hour saw no request and no
      departure; otherwise reports and restarts the hourly window. */
  function SendHourlyStats(s: State, chats: seq<ChatReplies>): (t: Transition)
    requires Enumerates(chats, s.tracked)
    ensures s.stats.hourlyRequests == 0 && s.stats.hourlyLeft == 0 ==> t == Transition(s, [])
    ensures s.stats.hourlyRequests != 0 || s.stats.hourlyLeft != 0 ==>
      && t.state.stats == ResetHourly(s.stats)
      && t.state.tracked == s.tracked - DroppedIds(chats)
      && forall x :: ReportDelivered(x, HourlyReport(s.stats.hourlyRequests, s.stats.hourlyLeft)) in t.effects
                     <==> Receives(chats, x)
    ensures forall i :: 0 <= i < |t.effects| ==>
      t.effects[i].ReportDelivered? &&
      t.effects[i].report == HourlyReport(s.stats.hourlyRequests, s.stats.hourlyLeft)
    ensures forall i, j :: 0 <= i < j < |t.effects| ==> t.effects[i].adminId != t.effects[j].adminId
    ensures t.state.pending == s.pending && t.state.approved == s.approved
  {
    if s.stats.hourlyRequests == 0 && s.stats.hourlyLeft == 0 then Transition(s, [])
    else
      var t := SendStatsToAdmins(s, chats, HourlyReport(s.stats.hourlyRequests, s.stats.hourlyLeft));
      Transition(t.state.(stats := ResetHourly(s.stats)), t.effects)
  }

  /** `send_daily_stats`: always reports, then restarts the 8-hour window. */
  function SendDailyStats(s: State, chats: seq<ChatReplies>): (t: Transition)
    requires Enumerates(chats, s.tracked)
    ensures t.state.stats == ResetDaily(s.stats)
    ensures t.state.tracked == s.tracked - DroppedIds(chats)
    ensures t.state.pending == s.pending && t.state.approved == s.approved
    ensures forall x ::
      ReportDelivered(x, DailyReport(s.stats.dailyRequests, s.stats.dailyLeft,
                                     s.stats.totalRequests, s.stats.totalApproved, s.stats.totalLeft)) in t.effects
      <==> Receives(chats, x)
    ensures forall i :: 0 <= i < |t.effects| ==>
      t.effects[i].ReportDelivered? &&
      t.effects[i].report == DailyReport(s.stats.dailyRequests, s.stats.dailyLeft,
                                         s.stats.totalRequests, s.stats.totalApproved, s.stats.totalLeft)
    ensures forall i, j :: 0 <= i < j < |t.effects| ==> t.effects[i].adminId != t.effects[j].adminId
  {
    var report := DailyReport(s.stats.dailyRequests, s.stats.dailyLeft,
                              s.stats.totalRequests, s.stats.totalApproved, s.stats.totalLeft);
    var t := SendStatsToAdmins(s, chats, report);
    Transition(t.state.(stats := ResetDaily(s.stats)), t.effects)
  }
}

=== FILE: state.dfy ===
/** The in-memory state of `TelegramBot`, its configuration, and the effects
    a handler can produce. */
module BotState {

  import opened Wrappers
  import opened Telegram

  /** The keys of `config.json` the handlers read; a key may be missing. */
  datatype Config = Config(
    autoApproveDelay: Option<int>,
    welcomeMessage: Option<string>,
    adminNotification: Option<bool>)

  /** What `load_config` returns when `config.json` does not exist. */
  const FallbackConfig := Config(
    Some(10),
    Some(" Добро пожаловать в нашу группу! Для консультации/заказа: @apple_anastasiya"),
    Some(true))

  /** Seconds before auto-approval: 600 when the key is missing from a config
      file that does exist. */
  function ApprovalDelay(cfg: Config): int {
    match cfg.autoApproveDelay
    case Some(d) => d
    case None => 600
  }

  /** Without `config.json` the delay is 10 seconds; a config file that
      lacks the key gives 600. */
  lemma FallbackDelay()
    ensures ApprovalDelay(FallbackConfig) == 10
    ensures ApprovalDelay(Config(None, None, None)) == 600
    ensures NotifiesAdmins(FallbackConfig) && NotifiesAdmins(Config(None, None, None))
  {
  }

  function WelcomeTemplate(cfg: Config): string {
    match cfg.welcomeMessage
    case Some(t) => t
    case None => "\U{1F389} Добро пожаловать в нашу группу!"
  }

  function NotifiesAdmins(cfg: Config): bool {
    match cfg.adminNotification
    case Some(b) => b
    case None => true
  }

  /** One entry of `pending_requests`. */
  datatype PendingRequest = PendingRequest(chatId: ChatId, requestedAt: int, user: UserData)

  /** The seven counters of `self.stats`. "daily" is the 8-hour window. */
  datatype Stats = Stats(
    hourlyRequests: nat, hourlyLeft: nat,
    dailyRequests: nat, dailyLeft: nat,
    totalRequests: nat, totalApproved: nat, totalLeft: nat)

  const NoStats := Stats(0, 0, 0, 0, 0, 0, 0)

  /** A request arrived: both windows and the lifetime total grow by one. */
  function RecordRequest(st: Stats): (r: Stats)
    ensures r.hourlyRequests == st.hourlyRequests + 1
    ensures r.dailyRequests == st.dailyRequests + 1
    ensures r.totalRequests == st.totalRequests + 1
    ensures r.(hourlyRequests := st.hourlyRequests, dailyRequests := st.dailyRequests,
               totalRequests := st.totalRequests) == st
  {
    st.(hourlyRequests := st.hourlyRequests + 1,
        dailyRequests := st.dailyRequests + 1,
        totalRequests := st.totalRequests + 1)
  }

  /** A participant left: both windows and the lifetime total grow by one. */
  function RecordLeft(st: Stats): (r: Stats)
    ensures r.hourlyLeft == st.hourlyLeft + 1
    ensures r.dailyLeft == st.dailyLeft + 1
    ensures r.totalLeft == st.totalLeft + 1
    ensures r.(hourlyLeft := st.hourlyLeft, dailyLeft := st.dailyLeft, totalLeft := st.totalLeft) == st
  {
    st.(hourlyLeft := st.hourlyLeft + 1, dailyLeft := st.dailyLeft + 1, totalLeft := st.totalLeft + 1)
  }

  /** The hourly window ends: its two counters restart, nothing else moves. */
  function ResetHourly(st: Stats): (r: Stats)
    ensures r.hourlyRequests == 0 && r.hourlyLeft == 0
    ensures r.(hourlyRequests := st.hourlyRequests, hourlyLeft := st.hourlyLeft) == st
  {
    st.(hourlyRequests := 0, hourlyLeft := 0)
  }

  /** The 8-hour window ends: its two counters restart, nothing else moves. */
  function ResetDaily(st: Stats): (r: Stats)
    ensures r.dailyRequests == 0 && r.dailyLeft == 0
    ensures r.(dailyRequests := st.dailyRequests, dailyLeft := st.dailyLeft) == st
  {
    st.(dailyRequests := 0, dailyLeft := 0)
  }

  /** `pending_requests` is keyed by user only; `approved_users` likewise. */
  datatype State = State(
    pending: map<UserId, PendingRequest>,
    approved: set<UserId>,
    stats: Stats,
    tracked: set<ChatId>)

  const Initial := State(map[], {}, NoStats, {})

  /** The figures a statistics report shows. The 8-hour report's "approved"
      line shows the lifetime approval total, there being no windowed one. */
  datatype StatsReport =
    | HourlyReport(requests: nat, left: nat)
    | DailyReport(requests: nat, left: nat, totalRequests: nat, totalApproved: nat, totalLeft: nat)

  /** What a handler makes happen outside the bot's own state. */
  datatype Effect =
    | ScheduleApproval(jobName: string, delay: int, userId: UserId, chatId: ChatId)
    | AdminNotified(adminId: UserId, applicant: UserId)
    | JoinApproved(chatId: ChatId, userId: UserId)
    | Welcome(chatId: ChatId, text: string, markdown: bool)
    | ReportDelivered(adminId: UserId, report: StatsReport)

  datatype Transition = Transition(state: State, effects: seq<Effect>)

  /** Facts that hold in every state the handlers can reach from `Initial`. */
  ghost predicate Valid(s: State) {
    && s.stats.totalApproved + |s.pending| <= s.stats.totalRequests
    && |s.approved| <= s.stats.totalApproved
    && s.stats.hourlyRequests <= s.stats.totalRequests
    && s.stats.dailyRequests <= s.stats.totalRequests
    && s.stats.hourlyLeft <= s.stats.totalLeft
    && s.stats.dailyLeft <= s.stats.totalLeft
    && forall u :: u in s.pending ==> s.pending[u].user.id == u
  }

  lemma InitialValid()
    ensures Valid(Initial)
  {
  }
}

=== FILE: telegram.dfy ===
/** The parts of the Telegram platform the bot observes, as plain values.
    Every remote call the bot makes is replaced by the reply it got back. */
module Telegram {

  import opened Wrappers

  type UserId = int
  type ChatId = int

  /** `telegram.constants.ChatType`. */
  datatype ChatKind = Private | Group | Supergroup | Channel | Sender

  /** `ChatMember.status`: OWNER is the platform's "creator". */
  datatype MemberStatus = Owner | Administrator | Member | Restricted | Left | Kicked

  /** The profile fields the bot copies from `request.from_user`. */
  datatype UserData = UserData(id: UserId, firstName: string, lastName: Option<string>, username: Option<string>)

  /** The reply to one remote call: a value, a `BadRequest`/`Forbidden`
      rejection, or any other exception (network, timeout, ...). */
  datatype Reply<+T> = Ok(value: T) | Refused | Errored

  /** The reply to one `send_message` call. */
  datatype SendOutcome = Sent | SendRefused | SendErrored

  /** One entry of a `get_chat_administrators` list, together with whether the
      bot's message to that administrator went through, should it try. */
  datatype AdminEntry = AdminEntry(id: UserId, isBot: bool, delivered: bool)

  predicate SupportedForJoin(kind: ChatKind) {
    kind == Group || kind == Supergroup || kind == Channel
  }

  /** A user became a participant: LEFT/KICKED to MEMBER/ADMINISTRATOR/OWNER. */
  predicate IsJoin(before: MemberStatus, after: MemberStatus) {
    (before == Left || before == Kicked) && (after == Member || after == Administrator || after == Owner)
  }

  /** A user stopped being a participant: MEMBER/ADMINISTRATOR to LEFT/KICKED. */
  predicate IsLeave(before: MemberStatus, after: MemberStatus) {
    (before == Member || before == Administrator) && (after == Left || after == Kicked)
  }
}

=== FILE: text.dfy ===
/** String helpers the bot relies on: Python's `str(int)` rendering of
    Telegram ids, its inverse, and a first-occurrence search. */
module Text {

  import opened Wrappers

  predicate IsDigit(c: char) {
    '0' <= c <= '9'
  }

  predicate AllDigits(s: string) {
    forall i :: 0 <= i < |s| ==> IsDigit(s[i])
  }

  predicate StartsWith(s: string, prefix: string) {
    |prefix| <= |s| && s[..|prefix|] == prefix
  }

  function DigitChar(d: nat): (c: char)
    requires d < 10
    ensures IsDigit(c) && DigitValue(c) == d
  {
    "0123456789"[d]
  }

  function DigitValue(c: char): nat
    requires IsDigit(c)
  {
    c as int - '0' as int
  }

  /** Decimal rendering of a natural number, without leading zeros. */
  function NatToString(n: nat): (s: string)
    ensures |s| > 0 && AllDigits(s)
    ensures n > 0 ==> s[0] != '0'
    decreases n
  {
    if n < 10 then [DigitChar(n)] else NatToString(n / 10) + [DigitChar(n % 10)]
  }

  /** Value of a string of decimal digits (the empty string reads as 0). */
  function ParseNat(s: string): nat
    requires AllDigits(s)
  {
    if |s| == 0 then 0 else ParseNat(s[..|s| - 1]) * 10 + DigitValue(s[|s| - 1])
  }

  lemma {:induction false} ParseNatOfNatToString(n: nat)
    ensures ParseNat(NatToString(n)) == n
    decreases n
  {
    if n >= 10 {
      var s := NatToString(n);
      assert s[..|s| - 1] == NatToString(n / 10);
      ParseNatOfNatToString(n / 10);
    }
  }

  /** Python's `str(i)` for an integer: an optional minus sign, then digits. */
  function IntToString(i: int): (s: string)
    ensures |s| > 0
    ensures (s[0] == '-') <==> i < 0
    ensures AllDigits(s[1..])
    ensures '_' !in s
  {
    if i < 0 then "-" + NatToString(-i) else NatToString(i)
  }

  /** Reads back what `IntToString` writes; anything else is `None`. */
  function ParseInt(s: string): (r: Option<int>)
    ensures r.Some? ==> 0 < |s| && (s[0] == '-' <==> r.value < 0)
  {
    if |s| > 1 && s[0] == '-' && AllDigits(s[1..]) && ParseNat(s[1..]) > 0 then
      Some(0 - ParseNat(s[1..]) as int)
    else if |s| > 0 && AllDigits(s) then
      Some(ParseNat(s))
    else
      None
  }

  lemma IntToStringRoundTrip(i: int)
    ensures ParseInt(IntToString(i)) == Some(i)
  {
    if i < 0 {
      var n := NatToString(-i);
      var s := "-" + n;
      assert s[1..] == n;
      ParseNatOfNatToString(-i);
      assert ParseInt(s) == Some(0 - ParseNat(n) as int);
    } else {
      var n := NatToString(i);
      ParseNatOfNatToString(i);
      assert IsDigit(n[0]);
      assert ParseInt(n) == Some(ParseNat(n));
    }
  }

  /** Distinct ids render to distinct strings, so keying the bot's tables by
      `str(id)` is the same as keying them by the id itself. */
  lemma IntToStringInjective(a: int, b: int)
    ensures IntToString(a) == IntToString(b) ==> a == b
  {
    IntToStringRoundTrip(a);
    IntToStringRoundTrip(b);
  }

  /** Position of the first occurrence of `c` in `s`. */
  function IndexOf(s: string, c: char): (r: Option<nat>)
    ensures r.None? ==> c !in s
    ensures r.Some? ==> r.value < |s| && s[r.value] == c && forall j :: 0 <= j < r.value ==> s[j] != c
  {
    if |s| == 0 then None
    else if s[0] == c then Some(0)
    else match IndexOf(s[1..], c)
      case None => None
      case Some(k) => Some(k + 1)
  }

  lemma IndexOfAfterPrefix(a: string, c: char, b: string)
    requires c !in a
    ensures IndexOf(a + [c] + b, c) == Some(|a|)
  {
    var s := a + [c] + b;
    assert s[|a|] == c;
    assert s[..|a|] == a;
  }
}

=== FILE: token.dfy ===
/** How `main` finds the bot token in a `.env` file and decides whether it
    looks usable. Reading the file and the environment are left to the
    caller: the file arrives as its lines, the variable as an option. */
module EnvToken {

  import opened Wrappers
  import opened Text

  const TokenKey := "TELEGRAM_BOT_TOKEN="
  const Placeholder := "your_bot_token_here"

  /** Python's `str.isspace`. */
  predicate IsSpace(c: char) {
    || c == ' ' || '\U{9}' <= c <= '\U{D}' || '\U{1C}' <= c <= '\U{1F}'
    || c == '\U{85}' || c == '\U{A0}' || c == '\U{1680}' || '\U{2000}' <= c <= '\U{200A}'
    || c == '\U{2028}' || c == '\U{2029}' || c == '\U{202F}' || c == '\U{205F}' || c == '\U{3000}'
  }

  predicate EndsWith(s: string, suffix: string) {
    |suffix| <= |s| && s[|s| - |suffix|..] == suffix
  }

  /** Neither end is whitespace. */
  predicate Stripped(s: string) {
    |s| == 0 || (!IsSpace(s[0]) && !IsSpace(s[|s| - 1]))
  }

  /** `str.lstrip()`: drops the leading whitespace and nothing else. */
  function TrimStart(s: string): (r: string)
    ensures |r| <= |s| && r == s[|s| - |r|..]
    ensures forall i :: 0 <= i < |s| - |r| ==> IsSpace(s[i])
    ensures |r| > 0 ==> !IsSpace(r[0])
  {
    if |s| > 0 && IsSpace(s[0]) then TrimStart(s[1..]) else s
  }

  /** `str.rstrip()`: drops the trailing whitespace and nothing else. */
  function TrimEnd(s: string): (r: string)
    ensures |r| <= |s| && r == s[..|r|]
    ensures forall i :: |r| <= i < |s| ==> IsSpace(s[i])
    ensures |r| > 0 ==> !IsSpace(r[|r| - 1])
  {
    if |s| > 0 && IsSpace(s[|s| - 1]) then TrimEnd(s[..|s| - 1]) else s
  }

  /** `str.strip()`. */
  function Strip(s: string): (r: string)
    ensures Stripped(r)
    ensures |r| <= |s|
  {
    var l := TrimStart(s);
    var r := TrimEnd(l);
    assert |r| > 0 ==> r[0] == l[0];
    r
  }

  /** The number of whitespace characters `s` starts with. */
  function LeadingSpace(s: string): (n: nat)
    ensures n <= |s|
    ensures forall i :: 0 <= i < n ==> IsSpace(s[i])
    ensures n < |s| ==> !IsSpace(s[n])
  {
    if |s| > 0 && IsSpace(s[0]) then 1 + LeadingSpace(s[1..]) else 0
  }

  /** Stripping removes whitespace at both ends and nothing else: what is
      left is one contiguous piece of `s`, with only whitespace outside it. */
  lemma StripRemovesOnlyOuterSpace(s: string)
    ensures var r, a := Strip(s), LeadingSpace(s);
      && Stripped(r)
      && a + |r| <= |s| && r == s[a..a + |r|]
      && forall i :: a + |r| <= i < |s| ==> IsSpace(s[i])
  {
    var a := LeadingSpace(s);
    TrimStartDropsLeadingSpace(s);
    TrimEndOfSuffix(s, a);
    assert Strip(s) == TrimEnd(s[a..]);
  }

  /** Right-trimming `s[a..]` keeps a prefix of it and drops only whitespace. */
  lemma TrimEndOfSuffix(s: string, a: nat)
    requires a <= |s|
    ensures var r := TrimEnd(s[a..]);
      a + |r| <= |s| && r == s[a..a + |r|] && forall i :: a + |r| <= i < |s| ==> IsSpace(s[i])
  {
    var l := s[a..];
    var r := TrimEnd(l);
    assert r == l[..|r|];
    forall i | a + |r| <= i < |s| ensures IsSpace(s[i]) {
      assert s[i] == l[i - a];
    }
  }

  lemma {:induction false} TrimStartDropsLeadingSpace(s: string)
    ensures TrimStart(s) == s[LeadingSpace(s)..]
  {
    if |s| > 0 && IsSpace(s[0]) {
      TrimStartDropsLeadingSpace(s[1..]);
    }
  }

  lemma StripOfStripped(s: string)
    requires Stripped(s)
    ensures Strip(s) == s
  {
    assert TrimStart(s) == s;
    assert TrimEnd(s) == s;
  }

  lemma StripIdempotent(s: string)
    ensures Strip(Strip(s)) == Strip(s)
  {
    StripOfStripped(Strip(s));
  }

  /** Python's `t[1:-1]`, which is empty for a one-character `t`. */
  function Inner(t: string): string {
    if |t| >= 2 then t[1..|t| - 1] else []
  }

  /** Removes one pair of double quotes, then one pair of single quotes. */
  function Unquote(t: string): (r: string)
    ensures |r| <= |t|
    ensures !(StartsWith(t, "\"") && EndsWith(t, "\"")) && !(StartsWith(t, "'") && EndsWith(t, "'")) ==> r == t
  {
    var t1 := if StartsWith(t, "\"") && EndsWith(t, "\"") then Inner(t) else t;
    if StartsWith(t1, "'") && EndsWith(t1, "'") then Inner(t1) else t1
  }

  /** What happens to a quoted token: a double-quoted one loses those quotes
      and then one pair of single quotes if the rest has them; a token only
      in single quotes loses those. */
  lemma UnquoteQuoted(t: string)
    ensures StartsWith(t, "\"") && EndsWith(t, "\"") ==>
      Unquote(t) == (if StartsWith(Inner(t), "'") && EndsWith(Inner(t), "'") then Inner(Inner(t)) else Inner(t))
    ensures !(StartsWith(t, "\"") && EndsWith(t, "\"")) && StartsWith(t, "'") && EndsWith(t, "'") ==>
      Unquote(t) == Inner(t)
  {
  }

  /** A token in single quotes loses them. */
  lemma UnquoteSingle(x: string)
    ensures Unquote("'" + x + "'") == x
  {
    var q := "'" + x + "'";
    assert q[0] == '\'' && q[|q| - 1] == '\'';
    assert Inner(q) == x;
  }

  /** Single quotes inside double quotes are removed too, in that order. */
  lemma UnquoteNested(x: string)
    ensures Unquote("\"" + "'" + x + "'" + "\"") == x
  {
    var inner := "'" + x + "'";
    var q := "\"" + inner + "\"";
    assert "\"" + "'" + x + "'" + "\"" == q;
    assert q[0] == '"' && q[|q| - 1] == '"';
    assert Inner(q) == inner;
    assert inner[0] == '\'' && inner[|inner| - 1] == '\'';
    assert Inner(inner) == x;
  }

  /** The token a `.env` line assigns, if it is the token's line. The value
      is what follows the key, which is what `split('=', 1)[1]` takes
      (`SplitTakesValue`). */
  function TokenFromLine(raw: string): (r: Option<string>)
    ensures r.Some? <==> StartsWith(Strip(raw), TokenKey)
  {
    var line := Strip(raw);
    if StartsWith(line, TokenKey) && !StartsWith(line, "#") then
      Some(Unquote(Strip(line[|TokenKey|..])))
    else None
  }

  /** `line.split('=', 1)[1]` on the token's line is what follows the key. */
  lemma SplitTakesValue(line: string)
    requires StartsWith(line, TokenKey)
    ensures IndexOf(line, '=') == Some(|TokenKey| - 1)
  {
    assert line == TokenKey[..|TokenKey| - 1] + ['='] + line[|TokenKey|..];
    IndexOfAfterPrefix(TokenKey[..|TokenKey| - 1], '=', line[|TokenKey|..]);
  }

  /** Whitespace around a line does not change the token it yields. */
  lemma TokenFromLineOfStrip(raw: string)
    ensures TokenFromLine(raw) == TokenFromLine(Strip(raw))
  {
    StripIdempotent(raw);
  }

  predicate AllSpace(s: string) {
    forall i :: 0 <= i < |s| ==> IsSpace(s[i])
  }

  lemma {:induction false} TrimStartOfPadded(lead: string, x: string)
    requires AllSpace(lead) && (|x| == 0 || !IsSpace(x[0]))
    ensures TrimStart(lead + x) == x
    decreases |lead|
  {
    if |lead| > 0 {
      assert (lead + x)[1..] == lead[1..] + x;
      TrimStartOfPadded(lead[1..], x);
    } else {
      assert lead + x == x;
    }
  }

  lemma {:induction false} TrimEndOfPadded(x: string, trail: string)
    requires AllSpace(trail) && (|x| == 0 || !IsSpace(x[|x| - 1]))
    ensures TrimEnd(x + trail) == x
    decreases |trail|
  {
    if |trail| > 0 {
      var shorter := trail[..|trail| - 1];
      assert (x + trail)[..|x + trail| - 1] == x + shorter;
      TrimEndOfPadded(x, shorter);
    } else {
      assert x + trail == x;
    }
  }

  /** Stripping a non-empty stripped line padded with whitespace on both
      sides gives the line back. */
  lemma StripOfPadded(lead: string, line: string, trail: string)
    requires AllSpace(lead) && AllSpace(trail) && Stripped(line) && |line| > 0
    ensures Strip(lead + line + trail) == line
  {
    assert lead + line + trail == lead + (line + trail);
    TrimStartOfPadded(lead, line + trail);
    TrimEndOfPadded(line, trail);
  }

  /** A line as the file yields it, with indentation and its newline, reads
      as the same line stripped. */
  lemma PaddedLineToken(lead: string, line: string, trail: string)
    requires AllSpace(lead) && AllSpace(trail) && Stripped(line) && |line| > 0
    ensures TokenFromLine(lead + line + trail) == TokenFromLine(line)
  {
    StripOfPadded(lead, line, trail);
    StripOfStripped(line);
  }

  /** The first present value of `xs`, if any. */
  function FirstPresent(xs: seq<Option<string>>): (r: Option<string>)
    ensures r.None? <==> forall i :: 0 <= i < |xs| ==> xs[i].None?
    ensures r.Some? ==> exists i :: 0 <= i < |xs| && xs[i] == r && forall j :: 0 <= j < i ==> xs[j].None?
  {
    if |xs| == 0 then None
    else if xs[0].Some? then xs[0]
    else
      var r := FirstPresent(xs[1..]);
      assert forall i :: 0 < i < |xs| ==> xs[i] == xs[1..][i - 1];
      r
  }

  /** What each `.env` line yields, line by line. */
  function LineTokens(lines: seq<string>): (r: seq<Option<string>>)
    ensures |r| == |lines|
    ensures forall i :: 0 <= i < |lines| ==> r[i] == TokenFromLine(lines[i])
  {
    if |lines| == 0 then [] else [TokenFromLine(lines[0])] + LineTokens(lines[1..])
  }

  /** The loop over the `.env` lines: the first token line wins and ends it. */
  function TokenFromEnvFile(lines: seq<string>): (r: Option<string>)
    ensures r.None? <==> forall i :: 0 <= i < |lines| ==> TokenFromLine(lines[i]).None?
    ensures r.Some? ==> exists i :: 0 <= i < |lines| && TokenFromLine(lines[i]) == r &&
                          forall j :: 0 <= j < i ==> TokenFromLine(lines[j]).None?
  {
    var xs := LineTokens(lines);
    var r := FirstPresent(xs);
    assert r.None? <==> forall i :: 0 <= i < |lines| ==> TokenFromLine(lines[i]).None? by {
      assert forall i :: 0 <= i < |lines| ==> xs[i] == TokenFromLine(lines[i]);
    }
    assert r.Some? ==> exists i :: 0 <= i < |lines| && TokenFromLine(lines[i]) == r &&
                         forall j :: 0 <= j < i ==> TokenFromLine(lines[j]).None? by {
      if r.Some? {
        var i :| 0 <= i < |xs| && xs[i] == r && forall j :: 0 <= j < i ==> xs[j].None?;
        assert TokenFromLine(lines[i]) == r;
        forall j | 0 <= j < i ensures TokenFromLine(lines[j]).None? {
          assert xs[j] == TokenFromLine(lines[j]);
        }
      }
    }
    r
  }

  /** The environment variable wins unless unset or empty; then the `.env`
      file, when it exists and names the token. */
  function ResolveToken(env: Option<string>, envFile: Option<seq<string>>): (r: Option<string>)
    ensures env.Some? && env.value != "" ==> r == env
    ensures (env.None? || env.value == "") && envFile.Some? && TokenFromEnvFile(envFile.value).Some? ==>
      r == TokenFromEnvFile(envFile.value)
    ensures r == env || (envFile.Some? && r == TokenFromEnvFile(envFile.value))
    ensures (env.None? || env.value == "") && (envFile.None? || TokenFromEnvFile(envFile.value).None?) ==>
      r == env
  {
    if env.Some? && env.value != "" then env
    else match envFile
      case None => env
      case Some(lines) =>
        match TokenFromEnvFile(lines)
        case Some(t) => Some(t)
        case None => env
  }

  datatype TokenVerdict = Missing | Malformed | Accepted(token: string)

  /** The start-up checks: a token must be present, not the placeholder,
      contain a colon and be at least 35 characters long. */
  function CheckToken(token: Option<string>): (v: TokenVerdict)
    ensures v.Accepted? <==> token.Some? && ':' in token.value && |token.value| >= 35
    ensures v.Accepted? ==> v.token == token.value
    ensures v.Missing? <==> token.None? || token.value == "" || token.value == Placeholder
  {
    if token.None? || token.value == "" || token.value == Placeholder then Missing
    else if ':' !in token.value || |token.value| < 35 then Malformed
    else Accepted(token.value)
  }

  /** On a line that already is stripped and starts with the key, the
      token is the unquoted, stripped remainder. */
  lemma TokenOfKeyLine(line: string)
    requires Stripped(line) && StartsWith(line, TokenKey)
    ensures TokenFromLine(line) == Some(Unquote(Strip(line[|TokenKey|..])))
  {
    StripOfStripped(line);
    assert line[0] == TokenKey[0];
  }

  lemma KeyLineStripped(value: string)
    requires Stripped(value)
    ensures Stripped(TokenKey + value) && StartsWith(TokenKey + value, TokenKey)
    ensures (TokenKey + value)[|TokenKey|..] == value
  {
    var line := TokenKey + value;
    assert line[..|TokenKey|] == TokenKey;
    assert line[0] == 'T';
    if |value| > 0 {
      assert line[|line| - 1] == value[|value| - 1];
    } else {
      assert line[|line| - 1] == '=';
    }
  }

  /** A token written bare after the key is read back unchanged. */
  lemma BareLineRoundTrip(t: string)
    requires Stripped(t)
    requires !(StartsWith(t, "\"") && EndsWith(t, "\"")) && !(StartsWith(t, "'") && EndsWith(t, "'"))
    ensures TokenFromLine(TokenKey + t) == Some(t)
  {
    KeyLineStripped(t);
    TokenOfKeyLine(TokenKey + t);
    StripOfStripped(t);
  }

  /** A token written in double quotes is read back without them, inner
      whitespace included. */
  lemma QuotedLineRoundTrip(t: string)
    requires !(StartsWith(t, "'") && EndsWith(t, "'"))
    ensures TokenFromLine(TokenKey + "\"" + t + "\"") == Some(t)
  {
    var q := "\"" + t + "\"";
    assert q[0] == '"' && q[|q| - 1] == '"';
    KeyLineStripped(q);
    assert TokenKey + "\"" + t + "\"" == TokenKey + q;
    TokenOfKeyLine(TokenKey + q);
    StripOfStripped(q);
    assert StartsWith(q, "\"") && EndsWith(q, "\"");
    assert Inner(q) == t;
    assert Unquote(q) == t;
  }

  /** A bare token on its own line, newline included, reads back unchanged. */
  lemma FileLineRoundTrip(t: string)
    requires Stripped(t)
    requires !(StartsWith(t, "\"") && EndsWith(t, "\"")) && !(StartsWith(t, "'") && EndsWith(t, "'"))
    ensures TokenFromLine(TokenKey + t + "\n") == Some(t)
  {
    KeyLineStripped(t);
    assert AllSpace("\n");
    assert TokenKey + t + "\n" == [] + (TokenKey + t) + "\n";
    PaddedLineToken([], TokenKey + t, "\n");
    BareLineRoundTrip(t);
  }
}

=== FILE: wrappers.dfy ===
/** A value that may be absent: a missing configuration key, an unset
    variable, a string that does not parse. */
module Wrappers {

  datatype Option<+T> = None | Some(value: T)
}
